=== FILE: README.md ===
# Memory Match game engine, modelled in Dafny

This project models the game-state engine of the Memory Match card game.
The engine deals a 16-card deck of 8 pairs and shuffles it with Fisher–Yates.
It runs the flip-two-cards turn protocol. On a match it awards
`100 × combo` points, tracks the best score and detects the end of the game.

Modules:

- `Cards` (cards.dfy): the card record, the deck layout and the counting facts about decks.
- `Shuffle` (shuffle.dfy): the Fisher–Yates pass on an array, with the random generator as an oracle.
- `Game` (game.dfy): the session state. `FlipStep` is the synchronous part of the flip command. `CheckForMatch` is the turn resolution. `FlipCard` composes the two, and `Play` runs a session of flips.
- `GameInvariants` (invariants.dfy): the state invariant `Valid`, its preservation by every step, and multi-step properties.
- `Setup` (setup.dfy): building the card list, `InitializeGame` and the engine's construction.
- `Interleaving` (interleaving.dfy): a new game started during the reveal pause, with or without flips on the new deck (see Findings).

Cards are addressed by their position in the deck. The source passes card objects instead.
The two pauses (600 and 200 time units) are pacing only. While they run, `IsProcessing` rejects every flip.
So, as long as no new game is started, `FlipCard` applies the resolution right after the second flip.
The new-game command does not check `IsProcessing` and clears it, so it does interleave with a pause. `Interleaving` models that.
`FlipStep` and `CheckForMatch` are also available as separate steps, with a state "second card pending, processing" between them.

## Model

| member | source | states |
|---|---|---|
| `Cards.UnshuffledDeck` | MemoryMatch/ViewModels/GameViewModel.cs:73-98 | The unshuffled deck has the layout of every deck of a game: 16 cards with distinct ids 0..15 and each card's pair equal to its id / 2. It holds every pair 0..7 exactly twice and no other pair. |
| `Cards.FreshDeckShape` | MemoryMatch/ViewModels/GameViewModel.cs:73-98 | Any unshuffled deck of 8 pairs has the game's layout and two cards of each pair 0..7, and none of any other pair. |
| `Cards.FreshDeckUnique` | MemoryMatch/ViewModels/GameViewModel.cs:73-98 | Two unshuffled decks of the same size are equal, so the unshuffled deck is fully determined. |
| `Setup.BuildCardList` | MemoryMatch/ViewModels/GameViewModel.cs:73-98 | The unshuffled list has 16 cards. Card k has id k and pair k / 2, so each symbol gets two consecutive ids. Every card is face down and unmatched. |
| `Shuffle.FisherYates` | MemoryMatch/ViewModels/GameViewModel.cs:100-106 | The in-place pass swaps each position i, from the top down to 1, with a position in [0, i]. It returns a permutation of the input (same length, same multiset of cards). That permutation is the one the round-by-round definition `Shuffled` gives for the same draws. |
| `Shuffle.SwapDownPermutes` | MemoryMatch/ViewModels/GameViewModel.cs:102-106 | Every round only exchanges two cards, so any number of rounds reorders the deck without adding or losing a card. |
| `Shuffle.ReachableFrom` | MemoryMatch/ViewModels/GameViewModel.cs:102-106 | Suppose positions 0..i hold the target's cards in some order and the positions above i already agree with the target. Then some draws make the rounds from i down to 1 produce the target. |
| `Shuffle.EveryOrderReachable` | MemoryMatch/ViewModels/GameViewModel.cs:100-106 | Every reordering of the deck is dealt by some sequence of draws. Together with `SwapDownPermutes`, the pass deals exactly the reorderings of its input. |
| `Setup.InitializeGame` | MemoryMatch/ViewModels/GameViewModel.cs:60-112 | Works from any state, including mid-turn. The result depends only on the old best score and the draws: it is the dealt state `Dealt`. The deck dealt is the unshuffled deck in the order the draws give it. Resets score, moves, matched pairs, combo, completion, processing, the message and both pending cards. Keeps the best score. Deals 16 face-down, unmatched cards with distinct ids 0..15, and every pair 0..7 occurs exactly twice. The result satisfies the engine invariant when the old best score is non-negative, as it always is in the source. |
| `Setup.NewGame` | MemoryMatch/ViewModels/GameViewModel.cs:54-57 | The engine as constructed is the unshuffled deck in the order the draws give it, all face down and unmatched. Score, moves, pairs, combo and best score are 0. Nothing is pending or processing, the game is not complete, and the message asks to match the pairs. It satisfies the invariant. |
| `Setup.EveryDealPossible` | MemoryMatch/ViewModels/GameViewModel.cs:73-106 | A deck can be dealt by some draws exactly when it is a reordering of the unshuffled deck. |
| `Cards.FreshDeckPairCount` | MemoryMatch/ViewModels/GameViewModel.cs:76-98 | The unshuffled deck of n pairs holds every pair 0..n-1 exactly twice and no other pair. |
| `Cards.CountPairPermutation` | MemoryMatch/ViewModels/GameViewModel.cs:100-106 | Reordering a deck does not change how many cards each pair has. |
| `Cards.FreshPermutationLayout` | MemoryMatch/ViewModels/GameViewModel.cs:73-106 | Any reordering of the unshuffled deck has 16 cards with distinct ids in 0..15. Each card's pair is id / 2, and all cards are face down and unmatched. |
| `Cards.DistinctPermutation` | MemoryMatch/ViewModels/GameViewModel.cs:100-106 | A reordering of a deck without repeated cards has no repeated cards. |
| `Cards.AtMostTwoPerPair` | MemoryMatch/ViewModels/GameViewModel.cs:81-97 | In a dealt deck no three cards share a pair. |
| `Game.FlipStep` | MemoryMatch/ViewModels/GameViewModel.cs:115-133 | A flip changes the state if and only if it is accepted. It is rejected while processing, for a position outside the deck, and for a card already face up or matched. An accepted flip turns only that card face up. A first flip records the card as first pending and spends no move. A second flip records the card as second pending, adds exactly one move and sets processing. Score, pairs, combo, best score and completion are unchanged, and no card loses its match. |
| `Game.CheckForMatch` | MemoryMatch/ViewModels/GameViewModel.cs:138-190 | Without two pending cards nothing changes. On a match both cards become matched. Pairs and combo each go up by 1, and the score goes up by 100 × the new combo. The best score becomes max(old best, new score). The game is complete when it already was or pairs reach 8. On a miss the combo becomes 0 and both cards are face down, with their match flags unchanged. Score, pairs, best score and completion are unchanged. In both cases no other card changes, both pending cards are cleared and processing ends. The message tag follows the combo and the win. |
| `Game.FlipCard` | MemoryMatch/ViewModels/GameViewModel.cs:115-136 | A rejected flip is a no-op. A flip that completes a turn costs exactly one move and leaves no card pending. Any other flip costs no move and finds no pair. Card ids and pairs never change, and matched cards stay matched. |
| `Game.Play` | MemoryMatch/ViewModels/GameViewModel.cs:115-136 | Over a session of flips, card ids and pairs never change, matched cards stay matched and moves never decrease. |
| `GameInvariants.FlipStepPreservesValid` | MemoryMatch/ViewModels/GameViewModel.cs:115-133 | A flip keeps the engine invariant. The invariant says: the deck layout is kept. A second pending card follows a first one and differs from it, and processing holds exactly while two cards are pending. A card is face up and unmatched exactly when it is pending, and matched cards stay face up. Matched cards come in whole pairs, and 2 × matched pairs equals the number of matched cards. The game is complete exactly at 8 pairs. Combo ≤ pairs, score ≤ the score of an unbroken streak, score ≤ best score, and pairs ≤ moves. |
| `GameInvariants.MatchPreservesValid` | MemoryMatch/ViewModels/GameViewModel.cs:145-170 | Resolving a matching pair keeps the engine invariant. |
| `GameInvariants.MissPreservesValid` | MemoryMatch/ViewModels/GameViewModel.cs:172-189 | Resolving a non-matching pair keeps the engine invariant. |
| `GameInvariants.CheckForMatchPreservesValid` | MemoryMatch/ViewModels/GameViewModel.cs:138-190 | Turn resolution keeps the engine invariant. |
| `GameInvariants.FlipCardPreservesValid` | MemoryMatch/ViewModels/GameViewModel.cs:115-136 | The flip command with its resolution keeps the engine invariant. |
| `GameInvariants.CompleteIffAllMatched` | MemoryMatch/ViewModels/GameViewModel.cs:166-168 | In a valid state the game is complete exactly when every card is matched. |
| `GameInvariants.CompletedGameIsFrozen` | MemoryMatch/ViewModels/GameViewModel.cs:117-118 | Once the game is complete, every flip is a no-op. |
| `GameInvariants.FlipCardLeavesNoTurnInFlight` | MemoryMatch/ViewModels/GameViewModel.cs:128-189 | From a state between turns, after a flip nothing is being processed and no second card is pending. |
| `GameInvariants.ScoreBound` | MemoryMatch/ViewModels/GameViewModel.cs:150-154 | In a valid state, pairs and combo are at most 8 and the score lies in [0, 3600]. |
| `GameInvariants.StreakScoreMonotone` | MemoryMatch/ViewModels/GameViewModel.cs:151-154 | The score of an unbroken streak grows with its length. |
| `GameInvariants.ScoreStep` | MemoryMatch/ViewModels/GameViewModel.cs:151-154 | One more match with combo ≤ pairs keeps the score within the unbroken-streak bound. |
| `GameInvariants.UnbrokenStreak` | MemoryMatch/ViewModels/GameViewModel.cs:145-170 | While no turn has missed, a match keeps combo = pairs and the score equal to 100 + 200 + … + 100·pairs. The eighth match scores 800, completes the game and leaves a score of 3600. |
| `GameInvariants.OneTurn` | MemoryMatch/ViewModels/GameViewModel.cs:115-190 | Flipping two face-down cards between turns costs one move and leaves nothing pending, and no other card changes. A pair becomes matched, with pairs +1, combo +1 and score + 100 × combo. A non-pair goes back face down and unmatched, with combo 0 and score and pairs unchanged. |
| `GameInvariants.SessionIsMonotone` | MemoryMatch/ViewModels/GameViewModel.cs:115-190 | Over any session of flips from a valid state the invariant holds and matched cards stay matched. A complete game stays complete. Score, best score, moves and pairs never decrease. |
| `Cards.CountMatchedUpdate` | MemoryMatch/ViewModels/GameViewModel.cs:148-149 | Replacing one card changes the matched count only by that card's own contribution. |
| `Cards.CountMatchedBound` | MemoryMatch/ViewModels/GameViewModel.cs:166-168 | At most every card is matched. The count equals the deck size exactly when every card is matched. |
| `Cards.CountMatchedZero` | MemoryMatch/ViewModels/GameViewModel.cs:73-98 | A deck with no matched card has a matched count of 0. |
| `Interleaving.ResumeAsWritten` | MemoryMatch/ViewModels/GameViewModel.cs:140-145 | When the suspended resolution resumes, it fails on a null reference exactly when either pending card has been cleared. Otherwise it resolves the turn and ends processing. |
| `Interleaving.NewGameDuringRevealAsWritten` | MemoryMatch/ViewModels/GameViewModel.cs:128-145 | Flip a second card, start a new game during the reveal pause, then resume as written: the resolution always dereferences a cleared reference. |
| `Interleaving.NewTurnDuringRevealAsWritten` | MemoryMatch/ViewModels/GameViewModel.cs:60-145 | Flip a second card, start a new game during the reveal pause and flip two cards of the new deck. The old resolution then resolves the new turn before its own pause is over: one move, nothing pending, processing ended. The new turn's own resolution then dereferences a cleared reference. |
| `Interleaving.FlipSteps` | MemoryMatch/ViewModels/GameViewModel.cs:115-133 | Flips made while a resolution is suspended change only the flip flags of cards. Card ids, pairs and match flags never change. |
| `Interleaving.FlipStepsPreservesValid` | MemoryMatch/ViewModels/GameViewModel.cs:115-133 | Such flips keep the engine invariant and leave score, best score, pairs and combo unchanged. |
| `Interleaving.NewGameAfterResolution` | MemoryMatch/ViewModels/GameViewModel.cs:60-190 | The intended fix: a new game requested during the reveal pause is accepted only after the pending resolution has run to completion. The result is a fresh deal that satisfies the invariant. Its best score never drops. After a match it is max(old best, old score + 100 × (combo + 1)), and after a miss it is the old best score. |
| `Interleaving.NewGameGuarded` | MemoryMatch/ViewModels/GameViewModel.cs:60-112 | Under the counter fix, a new game deals the same fresh, face-down state as the engine's own new game and moves the counter on by one. It satisfies the invariant when the old best score is non-negative. |
| `Interleaving.ResumeGuarded` | MemoryMatch/ViewModels/GameViewModel.cs:138-190 | Under the counter fix, the resolution does nothing when it resumes in a later game than the one it was suspended in. In its own game it ends the turn: nothing pending, processing ended. It keeps the invariant. |
| `Interleaving.NewGameDuringReveal` | MemoryMatch/ViewModels/GameViewModel.cs:60-145 | Start a new game during the reveal pause and make any flips on the new deck. With the game counter, the old resolution leaves the new game exactly as the flips made it: the fresh deal for the draws, keeping the best score, with the flips applied. The counter has moved on, and the result satisfies the invariant. |
| `Interleaving.NewTurnDuringReveal` | MemoryMatch/ViewModels/GameViewModel.cs:60-190 | With the game counter, a new turn started during the old pause stays pending when the old resolution resumes. The new turn's own resolution then ends it with one move, and it finds a pair exactly when the two cards share a pair. The result satisfies the invariant. |

## Left out

- Display payload: the emoji and gradient tables and the card's emoji and gradient fields are left out. They are fixed per pair, so `pairId` stands for them.
- Message text: messages are a tag carrying the numbers they show (combo, points, score, moves), not strings.
- Change notification, `RefreshCard` and the command wrappers are left out. They signal the view and hold no game logic.
- The pauses of 600 and 200 time units are pacing. Between them only `IsProcessing` matters, and the model keeps it.
- Randomness: `Random.Next(i + 1)` is an oracle value in [0, i]. The model proves that every order is reachable. It does not prove that every order is equally likely, because that depends on the generator's distribution.
- `Game.FlipStep`: a position outside the deck is ignored. The source flips any card object it is given, even one that is not in the current deck.
- Integer width: counters are unbounded integers. `ScoreBound` shows the score never exceeds 3600, so 32-bit wrap-around cannot happen. Moves would only wrap after 2^31 turns.
- Interleavings: during a pause, flips on the current deck are rejected. A new game is not rejected, and it clears `IsProcessing`, so flips on the new deck are accepted while the old resolution is suspended. `Interleaving` covers the reveal pause with no new flip and with one new turn as written. It also covers the intended run-to-completion fix, and any flips under the alternative counter fix.
- The 200-unit pause after a miss is not modelled separately. A resolution suspended there also resumes on references a new game may have cleared or replaced, and either fix applies to it in the same way. `CheckForMatch` and `ResumeGuarded` treat the resolution after the reveal pause as one step.
- `Interleaving.ResumeGuarded`: the game counter is neither in the source nor in the intended design. It is an alternative fix, modelled for comparison with `NewGameAfterResolution`, so `NewGameGuarded`, `ResumeGuarded`, `NewGameDuringReveal` and `NewTurnDuringReveal` describe that alternative, not the code.
- The counter fix cancels the pending turn, and the intended fix lets it finish. They differ when the pending pair matches: the finished resolution can raise the best score that the new game carries over, and the cancelled one cannot.
- `Interleaving.NewTurnDuringRevealAsWritten` assumes that the generated flip command accepts a tap while an earlier call of it is still paused. That command wrapper comes from a library that is not part of this model.
- The presentation layer is not part of this model: the card grid, animations, the win overlay and colour parsing.

## Findings

| source | as written | input that shows it | evidently intended | confidence | as-written member | corrected member |
|---|---|---|---|---|---|---|
| MemoryMatch/ViewModels/GameViewModel.cs:140-145 | The resolution checks both pending references before the 600-unit pause. After the pause it reads `_firstFlippedCard.PairId` and `_secondFlippedCard.PairId` without checking them again. | Flip two cards, then press New Game within the pause. `InitializeGame` sets both references to null, and the resumed resolution dereferences null. If the player flips two new cards first, the old resolution resolves the new turn early and the new turn's resolution dereferences null. | No cancellation: a resolution that has begun runs to completion before a new game is accepted. The new game then starts from the resolved state, with the best score the turn may have raised. Re-checking the references after the pause is not enough, because they may point to the new turn's cards. A game counter that makes the stale resolution a no-op is modelled as an alternative. | medium; not executed | `Interleaving.NewGameDuringRevealAsWritten`, `Interleaving.NewTurnDuringRevealAsWritten` | `Interleaving.NewGameAfterResolution` |

=== FILE: cards.dfy ===
/**
 * The cards of the memory-matching deck and the counting facts about decks
 * that the rest of the model relies on.
 *
 * A card is addressed by its position in the deck; its emoji and gradient
 * colours are display payload that is fully determined by `pairId`, so they
 * are not part of the model.
 */
module Cards {

  /** Number of symbols in the game, hence number of pairs. */
  const PairCount: nat := 8

  /** Two cards per symbol. */
  const DeckSize: nat := 2 * PairCount

  datatype Card = Card(id: int, pairId: int, isFlipped: bool, isMatched: bool)

  /** The face-down, unmatched card that deck construction gives id `id`:
      ids are handed out two per symbol, so the card's pair is `id / 2`. */
  function NewCard(id: nat): Card {
    Card(id, id / 2, false, false)
  }

  /** The unshuffled deck of `pairs` pairs: card `k` sits at position `k`. */
  ghost predicate IsFreshDeck(s: seq<Card>, pairs: nat) {
    && |s| == 2 * pairs
    && forall k :: 0 <= k < |s| ==> s[k] == NewCard(k)
  }

  /** The game's unshuffled deck, as deck construction lays it out. It has
      the layout of every deck of a game, and holds each pair twice. */
  function UnshuffledDeck(): (r: seq<Card>)
    ensures IsFreshDeck(r, PairCount)
    ensures Layout(r)
    ensures forall p :: CountPair(r, p) == if 0 <= p < PairCount then 2 else 0
  {
    var r := seq(DeckSize, k requires 0 <= k < DeckSize => NewCard(k));
    FreshDeckShape(r);
    r
  }

  /** The unshuffled deck of the game has its layout and two cards per pair. */
  lemma FreshDeckShape(s: seq<Card>)
    requires IsFreshDeck(s, PairCount)
    ensures Layout(s)
    ensures forall p :: CountPair(s, p) == if 0 <= p < PairCount then 2 else 0
  {
    FreshPermutationLayout(s, s);
    forall p ensures CountPair(s, p) == if 0 <= p < PairCount then 2 else 0 {
      FreshDeckPairCount(s, PairCount, p);
    }
  }

  /** There is only one unshuffled deck of a given size. */
  lemma FreshDeckUnique(a: seq<Card>, b: seq<Card>, pairs: nat)
    requires IsFreshDeck(a, pairs) && IsFreshDeck(b, pairs)
    ensures a == b
  {
  }

  /** The shape every deck of a game keeps: 16 cards, ids drawn from
      0..15 without repetition, and the pair of a card fixed by its id. */
  ghost predicate Layout(s: seq<Card>) {
    && |s| == DeckSize
    && (forall k :: 0 <= k < |s| ==> 0 <= s[k].id < DeckSize && s[k].pairId == s[k].id / 2)
    && (forall k, l :: 0 <= k < l < |s| ==> s[k].id != s[l].id)
  }

  ghost predicate Distinct<T>(s: seq<T>) {
    forall k, l :: 0 <= k < l < |s| ==> s[k] != s[l]
  }

  /** How many cards of `s` belong to pair `p`. */
  function CountPair(s: seq<Card>, p: int): nat {
    if |s| == 0 then 0 else (if s[0].pairId == p then 1 else 0) + CountPair(s[1..], p)
  }

  /** How many cards of `s` are matched. */
  function CountMatched(s: seq<Card>): nat {
    if |s| == 0 then 0 else (if s[0].isMatched then 1 else 0) + CountMatched(s[1..])
  }

  lemma {:induction false} CountPairConcat(a: seq<Card>, b: seq<Card>, p: int)
    ensures CountPair(a + b, p) == CountPair(a, p) + CountPair(b, p)
    decreases |a|
  {
    if |a| > 0 {
      assert (a + b)[1..] == a[1..] + b;
      CountPairConcat(a[1..], b, p);
    } else {
      assert a + b == b;
    }
  }

  /** Reordering a deck does not change how many cards each pair has. */
  lemma {:induction false} CountPairPermutation(a: seq<Card>, b: seq<Card>, p: int)
    requires multiset(a) == multiset(b)
    ensures CountPair(a, p) == CountPair(b, p)
    decreases |a|
  {
    if |a| == 0 {
      assert |b| == |multiset(b)| == 0;
    } else {
      var x := a[0];
      assert x in multiset(b);
      var k :| 0 <= k < |b| && b[k] == x;
      var rest := b[..k] + b[k + 1..];
      assert b == b[..k] + ([x] + b[k + 1..]);
      assert multiset(rest) == multiset(b) - multiset{x};
      assert a == [x] + a[1..];
      assert multiset(a[1..]) == multiset(a) - multiset{x};
      CountPairPermutation(a[1..], rest, p);
      CountPairConcat(b[..k], [x] + b[k + 1..], p);
      CountPairConcat([x], b[k + 1..], p);
      CountPairConcat(b[..k], b[k + 1..], p);
    }
  }

  /** The unshuffled deck holds every pair 0..pairs-1 exactly twice and no other pair. */
  lemma {:induction false} FreshDeckPairCount(s: seq<Card>, pairs: nat, p: int)
    requires IsFreshDeck(s, pairs)
    ensures CountPair(s, p) == if 0 <= p < pairs then 2 else 0
    decreases pairs
  {
    if pairs > 0 {
      var front := s[..2 * (pairs - 1)];
      var back := s[2 * (pairs - 1)..];
      assert s == front + back;
      FreshDeckPairCount(front, pairs - 1, p);
      CountPairConcat(front, back, p);
      assert back[0].pairId == pairs - 1 && back[1].pairId == pairs - 1;
      assert back[1..][1..] == [];
      assert CountPair(back[1..], p) == (if p == pairs - 1 then 1 else 0);
      assert CountPair(back, p) == (if p == pairs - 1 then 2 else 0);
    }
  }

  /** Replacing one card changes the matched count only by that card's contribution. */
  lemma {:induction false} CountMatchedUpdate(s: seq<Card>, k: nat, c: Card)
    requires k < |s|
    ensures CountMatched(s[k := c]) + (if s[k].isMatched then 1 else 0)
         == CountMatched(s) + (if c.isMatched then 1 else 0)
    decreases |s|
  {
    if k == 0 {
      assert s[k := c][1..] == s[1..];
    } else {
      assert s[k := c][1..] == s[1..][k - 1 := c];
      CountMatchedUpdate(s[1..], k - 1, c);
    }
  }

  /** At most every card is matched, and a full count means every card is. */
  lemma {:induction false} CountMatchedBound(s: seq<Card>)
    ensures CountMatched(s) <= |s|
    ensures CountMatched(s) == |s| <==> forall k :: 0 <= k < |s| ==> s[k].isMatched
    decreases |s|
  {
    if |s| > 0 {
      CountMatchedBound(s[1..]);
      if CountMatched(s) == |s| {
        forall k | 0 <= k < |s| ensures s[k].isMatched {
          if k > 0 {
            assert s[k] == s[1..][k - 1];
          }
        }
      }
      if forall k :: 0 <= k < |s| ==> s[k].isMatched {
        assert forall k :: 0 <= k < |s[1..]| ==> s[1..][k].isMatched by {
          forall k | 0 <= k < |s[1..]| ensures s[1..][k].isMatched {
            assert s[1..][k] == s[k + 1];
          }
        }
      }
    }
  }

  /** A deck with no matched card has a matched count of zero. */
  lemma {:induction false} CountMatchedZero(s: seq<Card>)
    requires forall k :: 0 <= k < |s| ==> !s[k].isMatched
    ensures CountMatched(s) == 0
    decreases |s|
  {
    if |s| > 0 {
      assert forall k :: 0 <= k < |s[1..]| ==> s[1..][k] == s[k + 1];
      CountMatchedZero(s[1..]);
    }
  }

  /** An element that occurs at two positions occurs at least twice in the multiset. */
  lemma RepeatedMultiplicity<T>(s: seq<T>, k: nat, l: nat)
    requires k < l < |s| && s[k] == s[l]
    ensures multiset(s)[s[k]] >= 2
  {
    assert s == s[..l] + s[l..];
    assert s[k] == s[..l][k];
    assert s[l] == s[l..][0];
  }

  /** A sequence without repeats has every multiplicity at most one. */
  lemma {:induction false} DistinctMultiplicity<T>(s: seq<T>, x: T)
    requires Distinct(s)
    ensures multiset(s)[x] <= 1
    decreases |s|
  {
    if |s| > 0 {
      assert s == [s[0]] + s[1..];
      assert Distinct(s[1..]) by {
        forall k, l | 0 <= k < l < |s[1..]| ensures s[1..][k] != s[1..][l] {
          assert s[1..][k] == s[k + 1] && s[1..][l] == s[l + 1];
        }
      }
      DistinctMultiplicity(s[1..], x);
      if x == s[0] {
        assert x !in s[1..] by {
          forall k | 0 <= k < |s[1..]| ensures s[1..][k] != x {
            assert s[1..][k] == s[k + 1];
          }
        }
      }
    }
  }

  /** Any reordering of a sequence without repeats has no repeats. */
  lemma DistinctPermutation<T>(a: seq<T>, b: seq<T>)
    requires multiset(a) == multiset(b) && Distinct(a)
    ensures Distinct(b)
  {
    forall k, l | 0 <= k < l < |b| ensures b[k] != b[l] {
      if b[k] == b[l] {
        RepeatedMultiplicity(b, k, l);
        DistinctMultiplicity(a, b[k]);
      }
    }
  }

  /** A reordering of the unshuffled deck keeps its layout, and all its cards face down. */
  lemma FreshPermutationLayout(unshuffled: seq<Card>, s: seq<Card>)
    requires IsFreshDeck(unshuffled, PairCount) && multiset(unshuffled) == multiset(s)
    ensures Layout(s)
    ensures forall k :: 0 <= k < |s| ==> !s[k].isFlipped && !s[k].isMatched
  {
    assert |s| == |multiset(s)| == |multiset(unshuffled)| == |unshuffled|;
    forall k | 0 <= k < |s|
      ensures exists t :: 0 <= t < DeckSize && s[k] == NewCard(t)
    {
      assert s[k] in multiset(unshuffled);
      var t :| 0 <= t < |unshuffled| && unshuffled[t] == s[k];
    }
    assert Distinct(unshuffled) by {
      forall k, l | 0 <= k < l < |unshuffled| ensures unshuffled[k] != unshuffled[l] {
        assert unshuffled[k].id == k && unshuffled[l].id == l;
      }
    }
    DistinctPermutation(unshuffled, s);
    forall k, l | 0 <= k < l < |s| ensures s[k].id != s[l].id {
      var t :| 0 <= t < DeckSize && s[k] == NewCard(t);
      var u :| 0 <= u < DeckSize && s[l] == NewCard(u);
    }
  }

  /** In a deck with the game's layout no pair has a third card. */
  lemma AtMostTwoPerPair(s: seq<Card>, i: nat, j: nat, k: nat)
    requires Layout(s)
    requires i < |s| && j < |s| && k < |s| && i != j && j != k && i != k
    ensures !(s[i].pairId == s[j].pairId == s[k].pairId)
  {
  }
}

=== FILE: game.dfy ===
/**
 * The turn controller of the memory-matching game: the state a session
 * carries and the two steps of a turn.
 *
 * Flipping a card (`FlipStep`) is the synchronous part of the flip command;
 * resolving a full turn (`CheckForMatch`) is what runs after the reveal
 * pause. Both pauses are pacing only, and while they run the processing
 * flag rejects every other flip, so `FlipCard` composes the two steps into
 * one atomic command.
 */
module Game {
  import opened Cards

  /** Points a match earns per step of the combo streak. */
  const PointsPerCombo: int := 100

  /** The status line, as a tag carrying the numbers it shows. */
  datatype Message =
    | MatchThePairs
    | PickAnother
    | ComboMatch(combo: int, points: int)
    | PerfectMatch
    | NoMatch
    | YouWin(score: int, moves: int)

  /** A pending-card reference: the deck position of a card flipped in the
      current turn, or nothing. */
  datatype Slot = Empty | Held(index: nat)

  datatype GameState = GameState(
    cards: seq<Card>,
    score: int,
    moves: int,
    matchedPairs: int,
    combo: int,
    bestScore: int,
    isGameComplete: bool,
    isProcessing: bool,
    message: Message,
    first: Slot,
    second: Slot)

  function Max(a: int, b: int): int {
    if a < b then b else a
  }

  /** Both pending references, when present, point into the deck. */
  predicate PendingInRange(g: GameState) {
    && (g.first.Held? ==> g.first.index < |g.cards|)
    && (g.second.Held? ==> g.second.index < |g.cards|)
  }

  /** The flip guard: a flip while a turn is being resolved, of a position
      outside the deck, or of a card already face up or matched is ignored. */
  predicate Ignored(g: GameState, k: int) {
    g.isProcessing || !(0 <= k < |g.cards|) || g.cards[k].isFlipped || g.cards[k].isMatched
  }

  /** Only the isFlipped/isMatched flags of cards ever change: every deck a
      game passes through has the same ids and pairs in the same positions. */
  ghost predicate SameFaces(a: seq<Card>, b: seq<Card>) {
    && |a| == |b|
    && forall k :: 0 <= k < |a| ==> a[k].id == b[k].id && a[k].pairId == b[k].pairId
  }

  /** A matched card of `a` is still matched in `b`. */
  ghost predicate KeepsMatches(a: seq<Card>, b: seq<Card>) {
    |a| <= |b| && forall k :: 0 <= k < |a| ==> a[k].isMatched ==> b[k].isMatched
  }

  /** The synchronous part of the flip command: turn the card face up and
      record it as the first or the second card of the turn; the second card
      costs a move and blocks further flips until the turn is resolved. */
  function FlipStep(g: GameState, k: int): (r: GameState)
    requires PendingInRange(g)
    ensures PendingInRange(r)
    // a flip has an effect exactly when none of the guards holds
    ensures r == g <==> Ignored(g, k)
    ensures !Ignored(g, k) ==>
      && r.cards == g.cards[k := g.cards[k].(isFlipped := true)]
      && r.score == g.score && r.matchedPairs == g.matchedPairs && r.combo == g.combo
      && r.bestScore == g.bestScore && r.isGameComplete == g.isGameComplete
    // first card of a turn: recorded as pending, no move spent
    ensures !Ignored(g, k) && g.first.Empty? ==>
      && r.first == Held(k) && r.second == g.second
      && r.moves == g.moves && r.isProcessing == g.isProcessing
      && r.message == PickAnother
    // second card of a turn: recorded, one more move, flips blocked
    ensures !Ignored(g, k) && g.first.Held? && g.second.Empty? ==>
      && r.first == g.first && r.second == Held(k)
      && r.moves == g.moves + 1 && r.isProcessing
      && r.message == g.message
    ensures SameFaces(g.cards, r.cards) && KeepsMatches(g.cards, r.cards)
  {
    if Ignored(g, k) then g
    else
      var h := g.(cards := g.cards[k := g.cards[k].(isFlipped := true)]);
      if g.first.Empty? then
        h.(first := Held(k), message := PickAnother)
      else if g.second.Empty? then
        h.(second := Held(k), moves := g.moves + 1, isProcessing := true)
      else
        h
  }

  /** Resolution of a turn once both cards are pending. A pair is matched
      for good, extends the combo and scores 100 points per combo step; a
      miss breaks the combo and turns both cards face down again. Either way
      the turn ends: the pending references are cleared and flips are
      accepted again. Without two pending cards nothing happens. */
  function CheckForMatch(g: GameState): (r: GameState)
    requires PendingInRange(g)
    ensures PendingInRange(r)
    ensures SameFaces(g.cards, r.cards) && KeepsMatches(g.cards, r.cards)
    ensures g.first.Empty? || g.second.Empty? ==> r == g
    ensures g.first.Held? && g.second.Held? ==>
      && r.first.Empty? && r.second.Empty? && !r.isProcessing
      && r.moves == g.moves
    // a match
    ensures (&& g.first.Held? && g.second.Held?
             && g.cards[g.first.index].pairId == g.cards[g.second.index].pairId) ==>
      var i, j := g.first.index, g.second.index;
      && r.cards[i].isMatched && r.cards[j].isMatched
      && r.cards[i].isFlipped == g.cards[i].isFlipped && r.cards[j].isFlipped == g.cards[j].isFlipped
      && (forall l :: 0 <= l < |g.cards| && l != i && l != j ==> r.cards[l] == g.cards[l])
      && r.matchedPairs == g.matchedPairs + 1
      && r.combo == g.combo + 1
      && r.score == g.score + PointsPerCombo * r.combo
      && r.bestScore == Max(g.bestScore, r.score)
      && (r.isGameComplete <==> g.isGameComplete || r.matchedPairs == PairCount)
      && r.message == (if r.matchedPairs == PairCount then YouWin(r.score, r.moves)
                       else if r.combo > 1 then ComboMatch(r.combo, PointsPerCombo * r.combo)
                       else PerfectMatch)
    // a miss
    ensures (&& g.first.Held? && g.second.Held?
             && g.cards[g.first.index].pairId != g.cards[g.second.index].pairId) ==>
      var i, j := g.first.index, g.second.index;
      && !r.cards[i].isFlipped && !r.cards[j].isFlipped
      && r.cards[i].isMatched == g.cards[i].isMatched && r.cards[j].isMatched == g.cards[j].isMatched
      && (forall l :: 0 <= l < |g.cards| && l != i && l != j ==> r.cards[l] == g.cards[l])
      && r.combo == 0
      && r.score == g.score && r.matchedPairs == g.matchedPairs
      && r.bestScore == g.bestScore && r.isGameComplete == g.isGameComplete
      && r.message == NoMatch
  {
    match (g.first, g.second)
    case (Held(i), Held(j)) =>
      if g.cards[i].pairId == g.cards[j].pairId then
        var combo := g.combo + 1;
        var points := PointsPerCombo * combo;
        var score := g.score + points;
        var pairs := g.matchedPairs + 1;
        var done := pairs == PairCount;
        g.(cards := g.cards[i := g.cards[i].(isMatched := true)][j := g.cards[j].(isMatched := true)],
           matchedPairs := pairs,
           combo := combo,
           score := score,
           bestScore := if score > g.bestScore then score else g.bestScore,
           isGameComplete := if done then true else g.isGameComplete,
           message := if done then YouWin(score, g.moves)
                      else if combo > 1 then ComboMatch(combo, points)
                      else PerfectMatch,
           first := Empty, second := Empty, isProcessing := false)
      else
        g.(cards := g.cards[i := g.cards[i].(isFlipped := false)][j := g.cards[j].(isFlipped := false)],
           combo := 0,
           message := NoMatch,
           first := Empty, second := Empty, isProcessing := false)
    case _ => g
  }

  /** Whether flipping `k` completes a turn: the flip is accepted while one
      card is already pending. */
  predicate CompletesTurn(g: GameState, k: int) {
    !Ignored(g, k) && g.first.Held? && g.second.Empty?
  }

  /** The flip command with its resolution run to completion. */
  function FlipCard(g: GameState, k: int): (r: GameState)
    requires PendingInRange(g)
    ensures PendingInRange(r)
    ensures Ignored(g, k) ==> r == g
    ensures CompletesTurn(g, k) ==> r.moves == g.moves + 1 && r.first.Empty? && r.second.Empty?
    ensures !CompletesTurn(g, k) ==> r.moves == g.moves && r.matchedPairs == g.matchedPairs
    ensures SameFaces(g.cards, r.cards) && KeepsMatches(g.cards, r.cards)
  {
    var h := FlipStep(g, k);
    if CompletesTurn(g, k) then CheckForMatch(h) else h
  }

  /** A session of flip commands, one after another. */
  function Play(g: GameState, flips: seq<int>): (r: GameState)
    requires PendingInRange(g)
    ensures PendingInRange(r)
    ensures SameFaces(g.cards, r.cards) && KeepsMatches(g.cards, r.cards)
    ensures r.moves >= g.moves
    decreases |flips|
  {
    if |flips| == 0 then g else Play(FlipCard(g, flips[0]), flips[1..])
  }
}

=== FILE: interleaving.dfy ===
/**
 * The interleavings the reveal pause allows. The flip command suspends after
 * the second card, and the new-game command does not check the processing
 * flag, so a new game can be started before the resolution resumes. The new
 * game clears the processing flag, so the player can also flip cards of the
 * new deck while the old resolution is still suspended.
 *
 * The resolution as written checks both pending references before the pause
 * and reads them again after it without checking. Then it either dereferences
 * references the new game cleared, or it resolves the new game's turn in
 * place of the resolution that belongs to it.
 *
 * The intended behaviour has no cancellation: a resolution that has begun
 * runs to completion before a new game is accepted (`NewGameAfterResolution`).
 * A second fix is modelled for comparison: the resolution remembers which
 * game it belongs to, through a counter that every new game increments, and
 * does nothing when it resumes in a later game. That fix cancels the pending
 * turn, so it can carry a lower best score into the new game.
 */
module Interleaving {
  import opened Cards
  import opened Shuffle
  import opened Game
  import opened GameInvariants
  import opened Setup

  /** What the resumed resolution produces: the next state, or the null
      dereference of a cleared pending reference. */
  datatype Resumed = Resumed(state: GameState) | NullDereference

  /** The resolution as written, run after the reveal pause on the state it
      finds then: it reads the pair of both pending cards without checking
      that they are still set. */
  function ResumeAsWritten(g: GameState): (r: Resumed)
    requires PendingInRange(g)
    ensures r.NullDereference? <==> g.first.Empty? || g.second.Empty?
    ensures r.Resumed? ==> r.state.first.Empty? && r.state.second.Empty? && !r.state.isProcessing
  {
    if g.first.Empty? || g.second.Empty? then NullDereference else Resumed(CheckForMatch(g))
  }

  /** Flips made while a resolution is suspended, each run up to its own
      reveal pause. */
  function FlipSteps(g: GameState, flips: seq<int>): (r: GameState)
    requires PendingInRange(g)
    ensures PendingInRange(r)
    ensures SameFaces(g.cards, r.cards) && KeepsMatches(g.cards, r.cards)
    ensures forall l :: 0 <= l < |g.cards| ==> r.cards[l].isMatched == g.cards[l].isMatched
    decreases |flips|
  {
    if |flips| == 0 then g else FlipSteps(FlipStep(g, flips[0]), flips[1..])
  }

  /** Flips alone keep the invariant, and never touch the score or the best score. */
  lemma {:induction false} FlipStepsPreservesValid(g: GameState, flips: seq<int>)
    requires Valid(g)
    ensures var r := FlipSteps(g, flips);
      && Valid(r)
      && r.score == g.score && r.bestScore == g.bestScore
      && r.matchedPairs == g.matchedPairs && r.combo == g.combo
    decreases |flips|
  {
    if |flips| > 0 {
      FlipStepPreservesValid(g, flips[0]);
      FlipStepsPreservesValid(FlipStep(g, flips[0]), flips[1..]);
    }
  }

  /** The second card of a turn is flipped, a new game is started during the
      reveal pause, and then the suspended resolution resumes as written:
      it fails on the references the new game cleared. */
  method NewGameDuringRevealAsWritten(g: GameState, k: int, picks: seq<int>) returns (outcome: Resumed)
    requires Valid(g) && CompletesTurn(g, k) && ValidPicks(picks, DeckSize)
    ensures outcome == NullDereference
  {
    var waiting := FlipStep(g, k);
    var restarted := InitializeGame(waiting, picks);
    outcome := ResumeAsWritten(restarted);
  }

  /** As above, but the player flips two cards of the new deck before the
      old resolution resumes. The old resolution then resolves the new turn
      early, and the new turn's own resolution, when it resumes, fails on
      the references the old one cleared. */
  method NewTurnDuringRevealAsWritten(g: GameState, k: int, picks: seq<int>, a: int, b: int)
    returns (stale: Resumed, own: Resumed)
    requires Valid(g) && CompletesTurn(g, k) && ValidPicks(picks, DeckSize)
    requires 0 <= a < DeckSize && 0 <= b < DeckSize && a != b
    ensures stale.Resumed?
    ensures && stale.state.moves == 1
      && stale.state.first.Empty? && stale.state.second.Empty? && !stale.state.isProcessing
    ensures own == NullDereference
  {
    var waiting := FlipStep(g, k);
    var restarted := InitializeGame(waiting, picks);
    var turn := FlipStep(FlipStep(restarted, a), b);
    stale := ResumeAsWritten(turn);
    own := ResumeAsWritten(stale.state);
  }

  /** The intended fix: a new game requested during the reveal pause is
      accepted only once the pending resolution has run to completion. The
      new game is a fresh deal that carries over the best score as the
      resolved turn left it: raised by a match, unchanged by a miss. */
  method NewGameAfterResolution(g: GameState, k: int, picks: seq<int>) returns (r: GameState)
    requires Valid(g) && CompletesTurn(g, k) && ValidPicks(picks, DeckSize)
    ensures Valid(r)
    ensures r == Dealt(r.bestScore, picks)
    ensures g.bestScore <= r.bestScore
    ensures g.cards[g.first.index].pairId == g.cards[k].pairId ==>
      r.bestScore == Max(g.bestScore, g.score + PointsPerCombo * (g.combo + 1))
    ensures g.cards[g.first.index].pairId != g.cards[k].pairId ==> r.bestScore == g.bestScore
  {
    var waiting := FlipStep(g, k);
    FlipStepPreservesValid(g, k);
    var resolved := CheckForMatch(waiting);
    CheckForMatchPreservesValid(waiting);
    r := InitializeGame(resolved, picks);
  }

  /** The engine with a game counter: every new game increments it. */
  datatype Session = Session(game: GameState, generation: nat)

  /** A resolution suspended in the reveal pause, with the counter of the
      game whose turn it resolves. */
  datatype Suspended = Suspended(generation: nat)

  /** The corrected resolution: it resolves the turn only when it resumes in
      the game it was suspended in, and it keeps the invariant. */
  function ResumeGuarded(s: Session, c: Suspended): (r: Session)
    requires PendingInRange(s.game)
    ensures PendingInRange(r.game)
    ensures r.generation == s.generation
    ensures c.generation != s.generation ==> r == s
    ensures c.generation == s.generation && s.game.first.Held? && s.game.second.Held? ==>
      r.game.first.Empty? && r.game.second.Empty? && !r.game.isProcessing
    ensures Valid(s.game) ==> Valid(r.game)
  {
    if c.generation == s.generation then
      ResolutionKeepsValid(s.game);
      Session(CheckForMatch(s.game), s.generation)
    else
      s
  }

  /** A new game under the counter fix: the same fresh deal as the engine's
      own new game, with the counter moved on. */
  method NewGameGuarded(s: Session, picks: seq<int>) returns (r: Session)
    requires ValidPicks(picks, DeckSize)
    ensures r.generation == s.generation + 1
    ensures r.game == Dealt(s.game.bestScore, picks)
    ensures forall k :: 0 <= k < |r.game.cards| ==> !r.game.cards[k].isFlipped && !r.game.cards[k].isMatched
    ensures 0 <= s.game.bestScore ==> Valid(r.game)
  {
    var dealt := InitializeGame(s.game, picks);
    r := Session(dealt, s.generation + 1);
  }

  /** Turn resolution keeps the invariant, in the form a function body can use. */
  lemma ResolutionKeepsValid(g: GameState)
    requires PendingInRange(g)
    ensures Valid(g) ==> Valid(CheckForMatch(g))
  {
    if Valid(g) {
      CheckForMatchPreservesValid(g);
    }
  }

  /** A new game is started during the reveal pause, and the player flips
      any cards of the new deck before the old resolution resumes. With the
      game counter, the old resolution leaves the freshly dealt game exactly
      as the flips made it. */
  method NewGameDuringReveal(s: Session, k: int, picks: seq<int>, flips: seq<int>) returns (r: Session)
    requires Valid(s.game) && CompletesTurn(s.game, k) && ValidPicks(picks, DeckSize)
    ensures r.generation != s.generation
    ensures r.game == FlipSteps(Dealt(s.game.bestScore, picks), flips)
    ensures Valid(r.game)
  {
    var waiting := Session(FlipStep(s.game, k), s.generation);
    FlipStepPreservesValid(s.game, k);
    var stale := Suspended(waiting.generation);
    var restarted := NewGameGuarded(waiting, picks);
    FlipStepsPreservesValid(restarted.game, flips);
    var current := Session(FlipSteps(restarted.game, flips), restarted.generation);
    r := ResumeGuarded(current, stale);
  }

  /** The same with exactly one new turn: the old resolution leaves the new
      turn pending, and the new turn's own resolution then resolves it. */
  method NewTurnDuringReveal(s: Session, k: int, picks: seq<int>, a: int, b: int)
    returns (afterStale: Session, afterOwn: Session)
    requires Valid(s.game) && CompletesTurn(s.game, k) && ValidPicks(picks, DeckSize)
    requires 0 <= a < DeckSize && 0 <= b < DeckSize && a != b
    ensures afterStale.game.first == Held(a) && afterStale.game.second == Held(b)
    ensures afterStale.game.isProcessing && afterStale.game.moves == 1
    ensures Valid(afterOwn.game)
    ensures afterOwn.game.first.Empty? && afterOwn.game.second.Empty? && !afterOwn.game.isProcessing
    ensures afterOwn.game.moves == 1
    ensures afterOwn.game.matchedPairs == 1 <==> afterOwn.game.cards[a].pairId == afterOwn.game.cards[b].pairId
  {
    var waiting := Session(FlipStep(s.game, k), s.generation);
    FlipStepPreservesValid(s.game, k);
    var stale := Suspended(waiting.generation);
    var restarted := NewGameGuarded(waiting, picks);
    var first := FlipStep(restarted.game, a);
    FlipStepPreservesValid(restarted.game, a);
    FlipStepPreservesValid(first, b);
    var current := Session(FlipStep(first, b), restarted.generation);
    var own := Suspended(current.generation);
    afterStale := ResumeGuarded(current, stale);
    afterOwn := ResumeGuarded(afterStale, own);
  }
}

=== FILE: invariants.dfy ===
/**
 * What every state of a game satisfies between commands, and what a
 * session of flips can and cannot undo.
 */
module GameInvariants {
  import opened Cards
  import opened Game

  /** The position `k` is one of the two cards of the turn in progress. */
  predicate IsPending(g: GameState, k: nat) {
    g.first == Held(k) || g.second == Held(k)
  }

  /** The state invariant of the engine. */
  ghost predicate Valid(g: GameState) {
    // the dealt deck keeps its layout
    && Layout(g.cards)
    // turn bookkeeping: a second card only after a first one, the two are
    // different cards, and flips are blocked exactly while two are pending
    && PendingInRange(g)
    && (g.first.Empty? ==> g.second.Empty?)
    && (g.second.Held? <==> g.isProcessing)
    && (g.second.Held? ==> g.first != g.second)
    // a card is face up and unmatched exactly when it belongs to the open turn
    && (forall k :: 0 <= k < |g.cards| ==>
          (g.cards[k].isFlipped && !g.cards[k].isMatched <==> IsPending(g, k)))
    // a matched card stays face up
    && (forall k :: 0 <= k < |g.cards| ==> g.cards[k].isMatched ==> g.cards[k].isFlipped)
    // a matched card's partner is matched too
    && (forall k, l :: 0 <= k < |g.cards| && 0 <= l < |g.cards| && g.cards[k].pairId == g.cards[l].pairId ==>
          g.cards[k].isMatched == g.cards[l].isMatched)
    // counters
    && 2 * g.matchedPairs == CountMatched(g.cards)
    && (g.isGameComplete <==> g.matchedPairs == PairCount)
    && 0 <= g.combo <= g.matchedPairs
    && 0 <= g.score <= StreakScore(g.matchedPairs)
    && g.score <= g.bestScore
    && g.matchedPairs + (if g.isProcessing then 1 else 0) <= g.moves
  }

  /** The score of `m` matches in a row without a miss: 100 + 200 + ... + 100 m. */
  function StreakScore(m: int): nat {
    if m <= 0 then 0 else StreakScore(m - 1) + PointsPerCombo * m
  }

  lemma {:induction false} StreakScoreMonotone(a: int, b: int)
    requires a <= b
    ensures StreakScore(a) <= StreakScore(b)
    decreases b - a
  {
    if a < b {
      StreakScoreMonotone(a, b - 1);
    }
  }

  /** Matching a pair keeps the score within the bound of an unbroken streak. */
  lemma ScoreStep(score: int, combo: int, m: int)
    requires 0 <= combo <= m && score <= StreakScore(m)
    ensures score + PointsPerCombo * (combo + 1) <= StreakScore(m + 1)
  {
  }

  lemma FlipStepPreservesValid(g: GameState, k: int)
    requires Valid(g)
    ensures Valid(FlipStep(g, k))
  {
    if !Ignored(g, k) {
      var r := FlipStep(g, k);
      CountMatchedUpdate(g.cards, k, g.cards[k].(isFlipped := true));
      if g.first.Held? {
        assert g.first.index != k;
      }
      assert forall l :: 0 <= l < |r.cards| && l != k ==> r.cards[l] == g.cards[l];
    }
  }

  /** Resolving a matching pair keeps the invariant. */
  lemma MatchPreservesValid(g: GameState)
    requires Valid(g) && g.first.Held? && g.second.Held?
    requires g.cards[g.first.index].pairId == g.cards[g.second.index].pairId
    ensures Valid(CheckForMatch(g))
  {
    var i, j := g.first.index, g.second.index;
    var r := CheckForMatch(g);
    var step := g.cards[i := g.cards[i].(isMatched := true)];
    CountMatchedUpdate(g.cards, i, g.cards[i].(isMatched := true));
    CountMatchedUpdate(step, j, g.cards[j].(isMatched := true));
    assert r.cards == step[j := g.cards[j].(isMatched := true)];
    assert 2 * r.matchedPairs == CountMatched(r.cards);
    CountMatchedBound(r.cards);
    assert r.matchedPairs <= PairCount;
    ScoreStep(g.score, g.combo, g.matchedPairs);
    assert r.score <= StreakScore(r.matchedPairs);
    assert Layout(r.cards);
    forall k, l | 0 <= k < |r.cards| && 0 <= l < |r.cards| && r.cards[k].pairId == r.cards[l].pairId
      ensures r.cards[k].isMatched == r.cards[l].isMatched
    {
      if k != i && k != j {
        AtMostTwoPerPair(g.cards, i, j, k);
      }
      if l != i && l != j {
        AtMostTwoPerPair(g.cards, i, j, l);
      }
    }
    assert forall k :: 0 <= k < |r.cards| ==>
      (r.cards[k].isFlipped && !r.cards[k].isMatched <==> IsPending(r, k));
  }

  /** Resolving a non-matching pair keeps the invariant. */
  lemma MissPreservesValid(g: GameState)
    requires Valid(g) && g.first.Held? && g.second.Held?
    requires g.cards[g.first.index].pairId != g.cards[g.second.index].pairId
    ensures Valid(CheckForMatch(g))
  {
    var i, j := g.first.index, g.second.index;
    var r := CheckForMatch(g);
    var step := g.cards[i := g.cards[i].(isFlipped := false)];
    CountMatchedUpdate(g.cards, i, g.cards[i].(isFlipped := false));
    CountMatchedUpdate(step, j, g.cards[j].(isFlipped := false));
    assert r.cards == step[j := g.cards[j].(isFlipped := false)];
  }

  lemma CheckForMatchPreservesValid(g: GameState)
    requires Valid(g)
    ensures Valid(CheckForMatch(g))
  {
    if g.first.Held? && g.second.Held? {
      if g.cards[g.first.index].pairId == g.cards[g.second.index].pairId {
        MatchPreservesValid(g);
      } else {
        MissPreservesValid(g);
      }
    }
  }

  lemma FlipCardPreservesValid(g: GameState, k: int)
    requires Valid(g)
    ensures Valid(FlipCard(g, k))
  {
    FlipStepPreservesValid(g, k);
    CheckForMatchPreservesValid(FlipStep(g, k));
  }

  /** The game is complete exactly when every card of the deck is matched. */
  lemma CompleteIffAllMatched(g: GameState)
    requires Valid(g)
    ensures g.isGameComplete <==> forall k :: 0 <= k < |g.cards| ==> g.cards[k].isMatched
  {
    CountMatchedBound(g.cards);
  }

  /** Once the game is complete no flip changes anything. */
  lemma CompletedGameIsFrozen(g: GameState, k: int)
    requires Valid(g) && g.isGameComplete
    ensures FlipCard(g, k) == g
  {
    CompleteIffAllMatched(g);
  }

  /** From a state between turns, a flip never leaves a turn half-resolved:
      the engine is ready for the next flip afterwards. */
  lemma FlipCardLeavesNoTurnInFlight(g: GameState, k: int)
    requires Valid(g) && !g.isProcessing
    ensures !FlipCard(g, k).isProcessing && FlipCard(g, k).second.Empty?
  {
  }

  /** The score of a game never exceeds that of an unbroken streak of
      eight matches, 100 + 200 + ... + 800 = 3600, well within 32 bits. */
  lemma ScoreBound(g: GameState)
    requires Valid(g)
    ensures 0 <= g.score <= 3600
    ensures 0 <= g.matchedPairs <= PairCount && 0 <= g.combo <= PairCount
  {
    CountMatchedBound(g.cards);
    StreakScoreMonotone(g.matchedPairs, PairCount);
    assert StreakScore(PairCount) == 3600;
  }

  /** While no turn has missed, the combo equals the number of pairs found
      and the score is that of the unbroken streak; the eighth match then
      scores 800 points and completes the game with 3600. */
  lemma UnbrokenStreak(g: GameState)
    requires Valid(g) && g.first.Held? && g.second.Held?
    requires g.cards[g.first.index].pairId == g.cards[g.second.index].pairId
    requires g.combo == g.matchedPairs && g.score == StreakScore(g.matchedPairs)
    ensures var r := CheckForMatch(g);
      && r.combo == r.matchedPairs
      && r.score == StreakScore(r.matchedPairs)
      && (r.matchedPairs == PairCount ==> r.score - g.score == 800 && r.score == 3600 && r.isGameComplete)
  {
  }

  /** A session of flips from a valid state: the invariant holds throughout,
      matched cards stay matched, the game once complete stays complete, and
      score, best score, moves and pairs found never go down. */
  lemma {:induction false} SessionIsMonotone(g: GameState, flips: seq<int>)
    requires Valid(g)
    ensures var r := Play(g, flips);
      && Valid(r)
      && KeepsMatches(g.cards, r.cards)
      && (g.isGameComplete ==> r.isGameComplete)
      && g.score <= r.score && g.bestScore <= r.bestScore
      && g.moves <= r.moves && g.matchedPairs <= r.matchedPairs
    decreases |flips|
  {
    if |flips| > 0 {
      var h := FlipCard(g, flips[0]);
      FlipCardPreservesValid(g, flips[0]);
      FlipStepPreservesValid(g, flips[0]);
      SessionIsMonotone(h, flips[1..]);
    }
  }

  /** One whole turn from a state between turns: two face-down cards are
      flipped. The turn costs one move and ends with no card pending; the
      two cards are matched for good when they form a pair, and are face
      down again otherwise. */
  lemma OneTurn(g: GameState, a: int, b: int)
    requires Valid(g) && g.first.Empty?
    requires 0 <= a < |g.cards| && 0 <= b < |g.cards| && a != b
    requires !g.cards[a].isFlipped && !g.cards[b].isFlipped
    ensures var r := Play(g, [a, b]);
      && r.moves == g.moves + 1
      && r.first.Empty? && r.second.Empty? && !r.isProcessing
      && (forall l :: 0 <= l < |g.cards| && l != a && l != b ==> r.cards[l] == g.cards[l])
      && (g.cards[a].pairId == g.cards[b].pairId ==>
            && r.cards[a].isMatched && r.cards[b].isMatched
            && r.matchedPairs == g.matchedPairs + 1
            && r.combo == g.combo + 1
            && r.score == g.score + PointsPerCombo * r.combo)
      && (g.cards[a].pairId != g.cards[b].pairId ==>
            && !r.cards[a].isFlipped && !r.cards[b].isFlipped
            && !r.cards[a].isMatched && !r.cards[b].isMatched
            && r.combo == 0
            && r.score == g.score && r.matchedPairs == g.matchedPairs)
  {
    var h := FlipCard(g, a);
    assert h == FlipStep(g, a);
    assert Play(g, [a, b]) == Play(h, [b]) by {
      assert [a, b][1..] == [b];
    }
    assert Play(h, [b]) == FlipCard(h, b) by {
      assert [b][1..] == [];
    }
  }
}

=== FILE: setup.dfy ===
/**
 * Starting a game: dealing a fresh deck and resetting the session counters.
 */
module Setup {
  import opened Cards
  import opened Shuffle
  import opened Game
  import opened GameInvariants

  /** Builds the unshuffled deck: for each symbol in turn, two cards with the
      next two ids and the symbol's index as their pair. */
  method BuildCardList() returns (cards: seq<Card>)
    ensures IsFreshDeck(cards, PairCount)
  {
    cards := [];
    var cardId := 0;
    var i := 0;
    while i < PairCount
      invariant 0 <= i <= PairCount
      invariant cardId == 2 * i == |cards|
      invariant forall k :: 0 <= k < |cards| ==> cards[k] == NewCard(k)
    {
      cards := cards + [Card(cardId, i, false, false)];
      cardId := cardId + 1;
      cards := cards + [Card(cardId, i, false, false)];
      cardId := cardId + 1;
      i := i + 1;
    }
  }

  /** The state of a freshly dealt game: the unshuffled deck in the order
      the draws give it, nothing played, and the best score carried over. */
  function Dealt(bestScore: int, picks: seq<int>): GameState
    requires ValidPicks(picks, DeckSize)
  {
    GameState(Shuffled(UnshuffledDeck(), picks), 0, 0, 0, 0, bestScore, false, false, MatchThePairs, Empty, Empty)
  }

  /** Starts a new game from any state, also in the middle of a turn: deals
      the unshuffled deck in the order the draws `picks` give it, face down
      and unmatched, resets every counter and the pending turn, and keeps
      the best score. */
  method InitializeGame(g: GameState, picks: seq<int>) returns (r: GameState)
    requires ValidPicks(picks, DeckSize)
    ensures r == Dealt(g.bestScore, picks)
    ensures |r.cards| == DeckSize
    ensures forall k :: 0 <= k < |r.cards| ==> !r.cards[k].isFlipped && !r.cards[k].isMatched
    // ids 0..15, each once
    ensures forall k :: 0 <= k < |r.cards| ==> 0 <= r.cards[k].id < DeckSize
    ensures forall k, l :: 0 <= k < l < |r.cards| ==> r.cards[k].id != r.cards[l].id
    // every pair 0..7 exactly twice
    ensures forall p :: 0 <= p < PairCount ==> CountPair(r.cards, p) == 2
    ensures 0 <= g.bestScore ==> Valid(r)
  {
    var unshuffled := BuildCardList();
    FreshDeckUnique(unshuffled, UnshuffledDeck(), PairCount);
    var deck := FisherYates(unshuffled, picks);
    FreshPermutationLayout(unshuffled, deck);
    forall p | 0 <= p < PairCount ensures CountPair(deck, p) == 2 {
      FreshDeckPairCount(unshuffled, PairCount, p);
      CountPairPermutation(unshuffled, deck, p);
    }
    CountMatchedZero(deck);
    r := GameState(deck, 0, 0, 0, 0, g.bestScore, false, false, MatchThePairs, Empty, Empty);
  }

  /** The engine as it is first constructed: a dealt game with nothing
      played yet and no best score. */
  method NewGame(picks: seq<int>) returns (r: GameState)
    requires ValidPicks(picks, DeckSize)
    ensures Valid(r)
    ensures r == Dealt(0, picks)
    ensures forall k :: 0 <= k < |r.cards| ==> !r.cards[k].isFlipped && !r.cards[k].isMatched
  {
    var blank := GameState([], 0, 0, 0, 0, 0, false, false, MatchThePairs, Empty, Empty);
    r := InitializeGame(blank, picks);
  }

  /** Every order of the unshuffled deck is a possible deal, and every deal
      is such an order. */
  lemma EveryDealPossible(cards: seq<Card>)
    ensures multiset(cards) == multiset(UnshuffledDeck()) <==>
      exists picks :: ValidPicks(picks, DeckSize) && Shuffled(UnshuffledDeck(), picks) == cards
  {
    if multiset(cards) == multiset(UnshuffledDeck()) {
      EveryOrderReachable(UnshuffledDeck(), cards);
    }
    if picks :| ValidPicks(picks, DeckSize) && Shuffled(UnshuffledDeck(), picks) == cards {
      SwapDownPermutes(UnshuffledDeck(), picks, DeckSize - 1);
    }
  }
}

=== FILE: shuffle.dfy ===
/**
 * The Fisher–Yates pass that deals the deck.
 *
 * The random number generator is replaced by an oracle: `picks[i]` is the
 * value the generator returns when the pass is at position `i`, i.e. the
 * result of asking for a number below `i + 1`.
 */
module Shuffle {
  import opened Cards

  /** An oracle for a deck of `n` cards: one draw per position, each in [0, i]. */
  predicate ValidPicks(picks: seq<int>, n: nat) {
    && |picks| == n
    && forall i :: 0 <= i < n ==> 0 <= picks[i] <= i
  }

  /** Exchanges the cards at positions `i` and `j`. */
  function Swap(s: seq<Card>, i: nat, j: nat): (r: seq<Card>)
    requires i < |s| && j < |s|
    ensures |r| == |s|
  {
    s[i := s[j]][j := s[i]]
  }

  /** The rounds of the pass for positions `i` down to 1, in that order. */
  function SwapDown(s: seq<Card>, picks: seq<int>, i: int): (r: seq<Card>)
    requires i < |s| && ValidPicks(picks, |s|)
    ensures |r| == |s|
    decreases i
  {
    if i <= 0 then s else SwapDown(Swap(s, i, picks[i]), picks, i - 1)
  }

  /** Every round only exchanges two cards, so the rounds reorder the deck. */
  lemma {:induction false} SwapDownPermutes(s: seq<Card>, picks: seq<int>, i: int)
    requires i < |s| && ValidPicks(picks, |s|)
    ensures multiset(SwapDown(s, picks, i)) == multiset(s)
    decreases i
  {
    if i > 0 {
      var j := picks[i];
      assert multiset(Swap(s, i, j)) == multiset(s);
      SwapDownPermutes(Swap(s, i, j), picks, i - 1);
    }
  }

  /** The whole pass: from the last position down to position 1. */
  function Shuffled(deck: seq<Card>, picks: seq<int>): seq<Card>
    requires ValidPicks(picks, |deck|)
  {
    SwapDown(deck, picks, |deck| - 1)
  }

  /** The pass on an array, as the deck is dealt: each position `i`, from
      the top down to 1, is swapped with position `picks[i]`. The result is
      a reordering of the input, and it is the one `Shuffled` describes. */
  method FisherYates(deck: seq<Card>, picks: seq<int>) returns (r: seq<Card>)
    requires ValidPicks(picks, |deck|)
    ensures |r| == |deck|
    ensures multiset(r) == multiset(deck)
    ensures r == Shuffled(deck, picks)
  {
    var a := new Card[|deck|](k requires 0 <= k < |deck| => deck[k]);
    assert a[..] == deck;
    var i := |deck| - 1;
    while i > 0
      invariant i < a.Length
      invariant SwapDown(a[..], picks, i) == Shuffled(deck, picks)
      decreases i
    {
      var j := picks[i];
      ghost var before := a[..];
      a[i], a[j] := a[j], a[i];
      assert a[..] == Swap(before, i, j);
      assert SwapDown(before, picks, i) == SwapDown(a[..], picks, i - 1);
      i := i - 1;
    }
    r := a[..];
    SwapDownPermutes(deck, picks, |deck| - 1);
  }

  /** The rounds for positions up to `i` read no draw above position `i`. */
  lemma {:induction false} SwapDownReadsBelow(s: seq<Card>, p: seq<int>, q: seq<int>, i: int)
    requires i < |s| && ValidPicks(p, |s|) && ValidPicks(q, |s|)
    requires forall k :: 0 <= k <= i ==> p[k] == q[k]
    ensures SwapDown(s, p, i) == SwapDown(s, q, i)
    decreases i
  {
    if i > 0 {
      SwapDownReadsBelow(Swap(s, i, p[i]), p, q, i - 1);
    }
  }

  /** With at most one position left to place, decks that agree above it are equal. */
  lemma NothingLeftToPlace(s: seq<Card>, t: seq<Card>, i: int)
    requires |s| == |t| && -1 <= i <= 0 && i < |s|
    requires multiset(s[..i + 1]) == multiset(t[..i + 1]) && s[i + 1..] == t[i + 1..]
    ensures s == t
  {
    if i == -1 {
      assert s == s[0..] && t == t[0..];
    } else {
      assert s[..1] == [s[0]] && t[..1] == [t[0]];
      assert s[0] in multiset(t[..1]);
      assert s == [s[0]] + s[1..] && t == [t[0]] + t[1..];
    }
  }

  /** One round of the pass can bring the card `t` wants at position `i`
      there, leaving positions 0..i-1 with the cards `t` has there. */
  lemma PlaceTop(s: seq<Card>, t: seq<Card>, i: int) returns (j: nat)
    requires |s| == |t| && 0 < i < |s|
    requires multiset(s[..i + 1]) == multiset(t[..i + 1]) && s[i + 1..] == t[i + 1..]
    ensures j <= i
    ensures multiset(Swap(s, i, j)[..i]) == multiset(t[..i])
    ensures Swap(s, i, j)[i..] == t[i..]
  {
    assert t[i] in multiset(s[..i + 1]) by {
      assert t[i] == t[..i + 1][i];
    }
    j :| 0 <= j < i + 1 && s[..i + 1][j] == t[i];
    PlacedBelow(s, t, i, j);
    PlacedAbove(s, t, i, j);
  }

  /** Bringing `t[i]` to position `i` leaves below it the cards `t` has there. */
  lemma PlacedBelow(s: seq<Card>, t: seq<Card>, i: nat, j: nat)
    requires |s| == |t| && j <= i < |s| && s[j] == t[i]
    requires multiset(s[..i + 1]) == multiset(t[..i + 1])
    ensures multiset(Swap(s, i, j)[..i]) == multiset(t[..i])
  {
    var s' := Swap(s, i, j);
    SwapInPrefix(s, i, j);
    assert s'[..i + 1] == s'[..i] + [t[i]];
    assert t[..i + 1] == t[..i] + [t[i]];
    CancelLast(s'[..i], t[..i], t[i]);
  }

  /** Bringing `t[i]` to position `i` makes the deck agree with `t` from `i` up. */
  lemma PlacedAbove(s: seq<Card>, t: seq<Card>, i: nat, j: nat)
    requires |s| == |t| && j <= i < |s| && s[j] == t[i] && s[i + 1..] == t[i + 1..]
    ensures Swap(s, i, j)[i..] == t[i..]
  {
    assert Swap(s, i, j)[i..] == [t[i]] + s[i + 1..];
    assert t[i..] == [t[i]] + t[i + 1..];
  }

  /** Swapping two positions of a prefix keeps the prefix's cards. */
  lemma SwapInPrefix(s: seq<Card>, i: nat, j: nat)
    requires j <= i < |s|
    ensures multiset(Swap(s, i, j)[..i + 1]) == multiset(s[..i + 1])
  {
  }

  /** Two sequences that end in the same card and hold the same cards hold
      the same cards before it. */
  lemma CancelLast(a: seq<Card>, b: seq<Card>, x: Card)
    requires multiset(a + [x]) == multiset(b + [x])
    ensures multiset(a) == multiset(b)
  {
    assert multiset(a + [x]) == multiset(a) + multiset{x};
    assert multiset(b + [x]) == multiset(b) + multiset{x};
    forall z ensures multiset(a)[z] == multiset(b)[z] {
      assert (multiset(a) + multiset{x})[z] == (multiset(b) + multiset{x})[z];
    }
  }

  /** If positions 0..i of `s` hold the same cards as those of `t`, in any
      order, and the positions above `i` already agree, some draws make
      the rounds for positions `i` down to 1 turn `s` into `t`. */
  lemma {:induction false} ReachableFrom(s: seq<Card>, t: seq<Card>, i: int)
    requires |s| == |t| && -1 <= i < |s|
    requires multiset(s[..i + 1]) == multiset(t[..i + 1]) && s[i + 1..] == t[i + 1..]
    ensures exists picks :: ValidPicks(picks, |s|) && SwapDown(s, picks, i) == t
    decreases i + 1
  {
    if i <= 0 {
      var picks := seq(|s|, k => 0);
      assert ValidPicks(picks, |s|);
      NothingLeftToPlace(s, t, i);
      assert SwapDown(s, picks, i) == t;
    } else {
      var j := PlaceTop(s, t, i);
      var s' := Swap(s, i, j);
      ReachableFrom(s', t, i - 1);
      var rest :| ValidPicks(rest, |s|) && SwapDown(s', rest, i - 1) == t;
      var picks := rest[i := j];
      assert ValidPicks(picks, |s|);
      SwapDownReadsBelow(s', picks, rest, i - 1);
      assert SwapDown(s, picks, i) == t;
    }
  }

  /** Every order of the deck is dealt by some sequence of draws: the pass
      can produce each reordering of its input, and nothing else. */
  lemma EveryOrderReachable(deck: seq<Card>, target: seq<Card>)
    requires multiset(deck) == multiset(target)
    ensures exists picks :: ValidPicks(picks, |deck|) && Shuffled(deck, picks) == target
  {
    assert |deck| == |multiset(deck)| == |multiset(target)| == |target|;
    assert deck[..|deck|] == deck && target[..|target|] == target;
    ReachableFrom(deck, target, |deck| - 1);
  }
}
